=== FILE: README.md ===
# Pin bookkeeping model

A Dafny model of the state machine inside the globe marker class `Pin`
(`src/js/Pin.js`). A pin joins a line, a top sprite, a text label and an
optional smoke effect. Rendering, projection and animation belong to outside
libraries. What remains is bookkeeping:

- the option record the constructor resolves from defaults and caller values;
- three independent visibility flags (`topVisible`, `labelVisible`,
  `smokeVisible`), the smoke handle `smokeId` and the stored `altitude`;
- the opacity of the top and label materials;
- the calls the pin makes on its two collaborators: the scene graph (`add`,
  `remove`) and the smoke provider (`setFire`, `extinguish`, `changeAltitude`).

A pin is a value of the datatype `Pins.Pin`, and each JavaScript method is a
function from the pin before the call to the pin after it. The calls on the
collaborators are appended to two logs carried in the value. Values the
collaborators return are parameters:

- `fire` is the handle `setFire` returns;
- `v` is the interpolated number a tween passes to its `onUpdate` callback.

An animation is modelled by its callbacks only. `changeAltitude` records a
pending animation. `TweenFrame` is one of its `onUpdate` calls. `TweenComplete`
is its `onComplete`, the only place the stored altitude changes. `FadeInFrame`
is one update of the intro fade. `Pins.Step` and `Pins.Run` let these
callbacks interleave with the method calls in any order. Overlapping altitude
animations are therefore covered: the last completion wins.

Module layout:

- `optional.dfy`: the `Option` type. `None` stands for `undefined`/`null`.
- `decimal.dfy`: decimal rendering of integers and its parser.
- `pin_options.dfy`: option resolution.
- `effects.dfy`: the collaborators' call logs and their replay. `OnScene` gives
  the objects in the scene. `FireLog` gives the state of the pin's fire, or
  `None` once a handle is misused.
- `pin.dfy`: the pin and its operations.
- `pin_properties.dfy`: invariants over whole lifetimes, relations between
  operations, and worked scenarios.

Two invariants hold from construction through any calls and callbacks before
`remove`:

- a hidden top or label has opacity 0;
- replaying the smoke log gives "burning under `smokeId`" exactly when
  `smokeVisible` holds, and "cold" otherwise.

`remove` does not clear `smokeVisible`. So a `hideSmoke` (or a second
`remove`) after it extinguishes the same handle a second time
(`PinProperties.RemoveThenHideSmokeExtinguishesTwice`). This is the source's
behaviour. The model keeps it and does not treat it as a defect.

## Model

| member | source | states |
|---|---|---|
| `PinOptions.Resolve` | src/js/Pin.js:20-37 | Each resolved entry is the caller's value when the caller defined it (not undefined/null), and the fixed default otherwise. The three `show*` defaults are `text.length > 0`. |
| `PinOptions.ResolveWithoutOverrides` | src/js/Pin.js:27-31 | Leaving `_opts` out is the same as passing an object with no defined entry. Both give the defaults, with every `show*` flag equal to "text is non-empty". |
| `PinOptions.ResolveSpelled` | src/js/Pin.js:31-37 | Caller values always win: an option record spelled out in full comes back unchanged, whatever the text. |
| `PinOptions.ResolveIdempotent` | src/js/Pin.js:20-38 | Feeding a resolved record back in as overrides gives the same record. |
| `PinOptions.FalsyEntryOverrides` | src/js/Pin.js:33-34 | For each of the three show flags and any text, an entry defined as `false` overrides the default, and an undefined entry keeps the default `text.length > 0`. |
| `Pins.Construct` | src/js/Pin.js:38-151 | The flags equal the resolved `showTop`/`showLabel`/`showSmoke`. lat, lon, text and altitude are the arguments. `setFire(lat, lon, altitude)` is logged once when smoke is shown, and never otherwise. The scene receives label sprite, line, top sprite, in that order. Both opacities start at 0. The fade is scheduled iff top or label is shown. |
| `PinProperties.ConstructEstablishes` | src/js/Pin.js:117-151 | A new pin has all three objects in the scene. The smoke log agrees with the smoke flag. Hidden parts are transparent. |
| `PinProperties.EmptyTextScenario` | src/js/Pin.js:27-42 | With empty text and no options, no part is visible, no fire is started and no fade is scheduled. |
| `PinProperties.CityScenario` | src/js/Pin.js:117-156 | `Pin(10, 20, "City", 100)` starts exactly one fire at (10, 20, 100), holds three objects in the scene and has the identifier "10_20". |
| `Decimal.ShowInt` | src/js/Pin.js:155 | An integer renders in canonical decimal form. A minus sign comes first exactly when it is negative, and every other character is a digit. There are no leading zeros, so only 0 starts with `0`. |
| `Decimal.ParseShowNat` | src/js/Pin.js:155 | Parsing the decimal rendering of a natural number gives back that number. |
| `Decimal.ParseShowInt` | src/js/Pin.js:155 | Parsing the rendering of any integer gives back that integer. |
| `Decimal.ShowIntInjective` | src/js/Pin.js:155 | Different integers render differently. |
| `Pins.ToString` | src/js/Pin.js:154-156 | The identifier is the canonical decimal rendering of the latitude, an underscore, then that of the longitude: the text before the first underscore is `ShowInt(lat)` and the text after it is `ShowInt(lon)`. It parses back to (lat, lon), so pins with different coordinates get different identifiers. |
| `Pins.ChangeAltitude` | src/js/Pin.js:158-163 | Calling `changeAltitude(a)` leaves the stored altitude unchanged and changes nothing else. It starts one animation from the stored altitude to `a`. |
| `Pins.TweenFrame` | src/js/Pin.js:165-166 | A frame of a running altitude animation logs `changeAltitude(v, smokeId)` iff smoke is visible. Otherwise the pin is unchanged. |
| `Pins.TweenComplete` | src/js/Pin.js:186-188 | Completing a running animation sets the stored altitude to its target and marks it completed. Completing any other animation changes nothing. |
| `Pins.FadeInFrame` | src/js/Pin.js:123-131 | A fade frame gives each sprite the frame's opacity if that sprite is visible at that moment, and 0 if it is not. Without a scheduled fade nothing changes. |
| `Pins.HideTop` | src/js/Pin.js:192-197 | Afterwards the top is hidden. The pin changes iff the top was visible, and then the only changes are the top flag and a top opacity of 0. |
| `Pins.ShowTop` | src/js/Pin.js:199-204 | Afterwards the top is visible. The pin changes iff the top was hidden, and then the only changes are the top flag and a top opacity of 1. |
| `Pins.HideLabel` | src/js/Pin.js:206-211 | The same as `HideTop`, for the label flag and label opacity. |
| `Pins.ShowLabel` | src/js/Pin.js:213-218 | The same as `ShowTop`, for the label flag and label opacity. |
| `Pins.HideSmoke` | src/js/Pin.js:220-225 | Afterwards smoke is hidden. A provider call is made iff smoke was visible, and it is exactly one `extinguish(smokeId)`. Nothing but the smoke state and the smoke log changes. |
| `Pins.ShowSmoke` | src/js/Pin.js:227-232 | Afterwards smoke is visible. If it was hidden, exactly one `setFire(lat, lon, altitude)` is logged and its handle becomes `smokeId`. If it was visible, handle and log are unchanged. |
| `Pins.Remove` | src/js/Pin.js:238-244 | Logs scene removals of label sprite, line and top sprite. Logs `extinguish(smokeId)` iff smoke is visible. Every flag, the handle and everything else stay as they were. |
| `PinProperties.RemoveDetachesAll` | src/js/Pin.js:238-241 | After `remove`, none of the pin's objects is in the scene, and the visibility flags are unchanged. |
| `PinProperties.RemoveExtinguishes` | src/js/Pin.js:243 | After `remove`, the provider's replayed view of the pin's fire is cold. Exactly one provider call was added iff smoke was visible. |
| `PinProperties.RemoveThenHideSmokeExtinguishesTwice` | src/js/Pin.js:220-243 | `hideSmoke` after `remove` of a smoking pin extinguishes the same handle twice, which breaks the handle discipline. |
| `PinProperties.StepKeepsTransparency` | src/js/Pin.js:126-130 | No call or callback, `remove` included, gives a hidden top or label a non-zero opacity. |
| `PinProperties.StepKeepsSmokeLog` | src/js/Pin.js:220-232 | Every call and callback other than `remove` keeps the provider's replayed view of the fire equal to the smoke flag and handle. |
| `PinProperties.StepKeepsIdentity` | src/js/Pin.js:44-46 | No call or callback changes lat, lon, text or options. Only `remove` talks to the scene. |
| `PinProperties.LiveRunKeepsInvariants` | src/js/Pin.js:158-232 | Any sequence of calls and callbacks without `remove` keeps both invariants, the scene log and the pin's identity. |
| `PinProperties.LiveLifecycle` | src/js/Pin.js:18-232 | From construction through any such sequence, all three objects stay in the scene. The smoke log agrees with the flag, hidden parts stay transparent, and lat/lon/text/options are the constructor's. |
| `PinProperties.TogglesIdempotent` | src/js/Pin.js:192-232 | Calling any show/hide method twice is the same as calling it once. |
| `PinProperties.TogglesIndependent` | src/js/Pin.js:192-232 | Toggles of different parts commute, so the three flags are independent. |
| `PinProperties.HideUndoesShow` | src/js/Pin.js:192-218 | When hidden parts are transparent, showing then hiding the top (or label) is the same as hiding it. |
| `PinProperties.AltitudeOnlyOnCompletion` | src/js/Pin.js:158-188 | The stored altitude changes only when a running altitude animation completes, and then to that animation's target. |
| `PinProperties.TweenStaysRunning` | src/js/Pin.js:162-189 | A started altitude animation stays running, with the same target, until its own completion fires. Other calls, frames and completions of overlapping animations may come in between. |
| `PinProperties.CompletionCommitsTarget` | src/js/Pin.js:162-188 | Whatever calls, frames and completions of other animations come in between, completing the animation `changeAltitude(a)` started sets the altitude to `a`. |

## Left out

- Geometry, materials, textures and sprites of the 3D library, and the canvas drawing of the top marker (src/js/Pin.js:5-15, 66-114). These are foreign library calls. Only each material's opacity is kept.
- Per-frame positions of the line end, the top sprite and the label (including the label offset by 1.1 and -15/30), and the line's intro animation (src/js/Pin.js:92-96, 134-146, 167-184). This is floating-point geometry over an outside projection and animation engine. Only the smoke `changeAltitude` call of each frame is kept.
- Timing, delays and easing of the animations. The engine's interpolated values arrive as event parameters, and callbacks may arrive in any order. The model does not say when the fade or an altitude animation ends.
- `mapPoint`, `createLabel` and `renderToCanvas` from `utils`. The `utils` module is not part of this model.
- `age()` and `dateCreated` (src/js/Pin.js:50, 234-236). They read the wall clock.
- The scene and provider references themselves. Each pin's logs record only its own calls. Other pins sharing those collaborators are not modelled.
- The order between scene calls and smoke-provider calls is not recorded, because each collaborator has its own log. The source starts the fire (src/js/Pin.js:118) before the scene adds (149-151), and removes from the scene (239-241) before extinguishing (243). Neither collaborator can observe that order.
- Pins.ToString: latitude and longitude are integers, and JavaScript's rendering of fractional or very large numbers (exponent form) is not modelled.
- Pins.Construct: `text` is always a string. The TypeError that `text.length` (src/js/Pin.js:27) throws for undefined or null text, before any provider or scene call, is not modelled.
- PinOptions.Resolve: option entries are typed. A caller value of the wrong type, whose JavaScript truthiness would then drive a flag, is not modelled.

=== FILE: decimal.dfy ===
/** Decimal rendering of integers, the part of JavaScript's number-to-string
    conversion that `Pin.toString` relies on for integral coordinates, and the
    matching parser that shows the rendering loses nothing. */
module Decimal {
  import opened Optional

  predicate IsDigit(c: char) {
    '0' <= c <= '9'
  }

  function DigitChar(d: nat): (c: char)
    requires d < 10
    ensures IsDigit(c)
  {
    ('0' as int + d) as char
  }

  function DigitValue(c: char): (d: nat)
    requires IsDigit(c)
    ensures d < 10 && DigitChar(d) == c
  {
    c as int - '0' as int
  }

  /** Most significant digit first, no leading zeros, never empty */
  function ShowNat(n: nat): (s: string)
    ensures |s| > 0
    ensures forall k :: 0 <= k < |s| ==> IsDigit(s[k])
    ensures s[0] == '0' ==> n == 0
    decreases n
  {
    if n < 10 then [DigitChar(n)] else ShowNat(n / 10) + [DigitChar(n % 10)]
  }

  /** A minus sign in front of the magnitude for negative numbers */
  function ShowInt(i: int): (s: string)
    ensures |s| > 0
    ensures s[0] == '-' <==> i < 0
    ensures i >= 0 ==> IsDigit(s[0])
    ensures forall k :: 1 <= k < |s| ==> IsDigit(s[k])
    ensures s[0] == '0' ==> i == 0
    ensures i < 0 ==> |s| > 1 && s[1] != '0'
    ensures i == 0 ==> s == "0"
  {
    if i < 0 then "-" + ShowNat(-i) else ShowNat(i)
  }

  /** Reads a non-empty string of digits; anything else is `None` */
  function ParseNat(s: string): (r: Option<nat>)
    ensures r.Some? <==> |s| > 0 && forall k :: 0 <= k < |s| ==> IsDigit(s[k])
    decreases |s|
  {
    if |s| == 0 || !IsDigit(s[|s| - 1]) then None
    else if |s| == 1 then Some(DigitValue(s[0]))
    else
      match ParseNat(s[..|s| - 1])
      case None => None
      case Some(m) => Some(10 * m + DigitValue(s[|s| - 1]))
  }

  /** An optional minus sign followed by digits */
  function ParseInt(s: string): Option<int> {
    if |s| > 0 && s[0] == '-' then
      match ParseNat(s[1..])
      case None => None
      case Some(m) => Some(-(m as int))
    else
      match ParseNat(s)
      case None => None
      case Some(m) => Some(m as int)
  }

  lemma {:induction false} ParseShowNat(n: nat)
    ensures ParseNat(ShowNat(n)) == Some(n)
    decreases n
  {
    if n >= 10 {
      var s := ShowNat(n);
      assert s[..|s| - 1] == ShowNat(n / 10);
      ParseShowNat(n / 10);
    }
  }

  lemma ParseShowInt(i: int)
    ensures ParseInt(ShowInt(i)) == Some(i)
  {
    if i < 0 {
      assert ShowInt(i)[1..] == ShowNat(-i);
      ParseShowNat(-i);
    } else {
      ParseShowNat(i);
    }
  }

  /** Different integers never render alike */
  lemma ShowIntInjective(i: int, j: int)
    requires ShowInt(i) == ShowInt(j)
    ensures i == j
  {
    ParseShowInt(i);
    ParseShowInt(j);
  }
}

=== FILE: effects.dfy ===
/** The two collaborators a pin talks to, seen only through the calls it makes:
    the scene graph (`add`/`remove`) and the smoke provider (`setFire`,
    `extinguish`, `changeAltitude`). Each is recorded as a log of calls, and
    replaying a log says what the collaborator was left holding. */
module Effects {
  import opened Optional

  /** The opaque handle `setFire` returns */
  type Handle = nat

  /** The three objects a pin puts into the scene */
  datatype SceneObject = LabelSprite | Line | TopSprite

  datatype SceneCall = SceneAdd(obj: SceneObject) | SceneRemove(obj: SceneObject)

  /** `SetFire` records the handle the provider returned along with the arguments */
  datatype SmokeCall =
    | SetFire(lat: int, lon: int, altitude: real, result: Handle)
    | Extinguish(id: Handle)
    | ChangeSmokeAltitude(altitude: real, id: Handle)

  const AllObjects: set<SceneObject> := {LabelSprite, Line, TopSprite}

  function ApplyScene(on: set<SceneObject>, c: SceneCall): set<SceneObject> {
    match c
    case SceneAdd(o) => on + {o}
    case SceneRemove(o) => on - {o}
  }

  /** The pin's objects the scene holds after the calls in `log` */
  function OnScene(log: seq<SceneCall>): set<SceneObject>
    decreases |log|
  {
    if |log| == 0 then {} else ApplyScene(OnScene(log[..|log| - 1]), log[|log| - 1])
  }

  lemma OnSceneAppend(log: seq<SceneCall>, c: SceneCall)
    ensures OnScene(log + [c]) == ApplyScene(OnScene(log), c)
  {
    assert (log + [c])[..|log|] == log;
  }

  /** Whether the pin's one smoke effect is burning, as the provider sees it */
  datatype Fire = Cold | Lit(id: Handle)

  /** One call of the pin's own handle discipline: a fire is started only when
      none burns, and only the burning handle is moved or extinguished.
      `None` is a call that breaks the discipline. */
  function NextFire(f: Fire, c: SmokeCall): Option<Fire> {
    match c
    case SetFire(_, _, _, h) => if f.Cold? then Some(Lit(h)) else None
    case Extinguish(h) => if f == Lit(h) then Some(Cold) else None
    case ChangeSmokeAltitude(_, h) => if f == Lit(h) then Some(f) else None
  }

  /** Replays a smoke log from "nothing burning"; `None` once a call misuses a handle */
  function FireLog(log: seq<SmokeCall>): Option<Fire>
    decreases |log|
  {
    if |log| == 0 then Some(Cold)
    else
      match FireLog(log[..|log| - 1])
      case None => None
      case Some(f) => NextFire(f, log[|log| - 1])
  }

  lemma FireLogAppend(log: seq<SmokeCall>, c: SmokeCall)
    ensures FireLog(log + [c]) == (match FireLog(log) case None => None case Some(f) => NextFire(f, c))
  {
    assert (log + [c])[..|log|] == log;
  }
}

=== FILE: optional.dfy ===
/** The absent-or-present value used throughout the model: a JavaScript
    property that is `undefined` or `null` is `None`. */
module Optional {

  datatype Option<+T> = None | Some(value: T) {

    /** The wrapped value, or `default` when there is none */
    function GetOr(default: T): T {
      match this
      case Some(v) => v
      case None => default
    }
  }
}

=== FILE: pin.dfy ===
/** The bookkeeping of one globe marker (class `Pin`, src/js/Pin.js:17-245).
    A pin is a value; each method is a function from the pin before the call
    to the pin after it. The calls the pin makes on the scene graph and on the
    smoke provider are appended to two logs carried in the value. Values the
    collaborators hand back (the handle `setFire` returns, the interpolated
    numbers the tween engine passes to its callbacks) are parameters. */
module Pins {
  import opened Optional
  import opened Effects
  import opened PinOptions
  import Decimal

  /** `smokeVisible` together with `smokeId`: a handle exists whenever smoke is
      visible, and a hidden fire keeps the handle it last had. */
  datatype Smoke = NeverLit | Visible(id: Handle) | Hidden(lastId: Handle)

  /** One `changeAltitude` animation: it starts at the stored altitude and
      commits `to` when its completion fires. */
  datatype AltitudeTween = AltitudeTween(from: real, to: real, completed: bool)

  datatype Pin = Pin(
    lat: int,
    lon: int,
    text: string,
    altitude: real,
    opts: Options,
    topVisible: bool,
    labelVisible: bool,
    smoke: Smoke,
    topOpacity: real,             // opacity of the top sprite's material
    labelOpacity: real,           // opacity of the label sprite's material
    fadeIn: bool,                 // the intro opacity animation was scheduled
    tweens: seq<AltitudeTween>,   // every altitude animation started so far
    smokeCalls: seq<SmokeCall>,
    sceneCalls: seq<SceneCall>)

  /** The order in which construction adds the pin's objects, and `remove` takes them away */
  const Attach: seq<SceneCall> := [SceneAdd(LabelSprite), SceneAdd(Line), SceneAdd(TopSprite)]
  const Detach: seq<SceneCall> := [SceneRemove(LabelSprite), SceneRemove(Line), SceneRemove(TopSprite)]

  /** `new Pin(lat, lon, text, altitude, scene, smokeProvider, _opts)`;
      `fire` is the handle the provider returns if `setFire` is called. */
  function Construct(lat: int, lon: int, text: string, altitude: real,
                     given: Option<Overrides>, fire: Handle): (p: Pin)
    ensures p.opts == Resolve(text, given)
    ensures p.topVisible == p.opts.showTop
    ensures p.labelVisible == p.opts.showLabel
    ensures p.smoke.Visible? == p.opts.showSmoke
    ensures p.smoke.Visible? ==> p.smoke.id == fire
    ensures p.lat == lat && p.lon == lon && p.text == text && p.altitude == altitude
    ensures p.smokeCalls == if p.opts.showSmoke then [SetFire(lat, lon, altitude, fire)] else []
    ensures p.sceneCalls == Attach
    ensures p.topOpacity == 0.0 && p.labelOpacity == 0.0
    ensures p.fadeIn <==> p.opts.showTop || p.opts.showLabel
    ensures p.tweens == []
  {
    var opts := Resolve(text, given);
    Pin(lat, lon, text, altitude, opts,
        opts.showTop, opts.showLabel,
        if opts.showSmoke then Visible(fire) else NeverLit,
        0.0, 0.0,
        opts.showTop || opts.showLabel,
        [],
        if opts.showSmoke then [SetFire(lat, lon, altitude, fire)] else [],
        Attach)
  }

  /** `toString()`: latitude, an underscore, longitude */
  function ToString(p: Pin): (s: string)
    ensures var k := FirstIndex(s, '_');
      k < |s| && s[..k] == Decimal.ShowInt(p.lat) && s[k + 1..] == Decimal.ShowInt(p.lon)
    ensures ParseId(s) == Some((p.lat, p.lon))
  {
    var a := Decimal.ShowInt(p.lat);
    var s := a + "_" + Decimal.ShowInt(p.lon);
    assert s[..|a|] == a && s[|a| + 1..] == Decimal.ShowInt(p.lon);
    var k := FirstIndex(s, '_');
    assert s[|a|] == '_';
    assert k == |a|;
    Decimal.ParseShowInt(p.lat);
    Decimal.ParseShowInt(p.lon);
    s
  }

  /** Position of the first `c` in `s`, or `|s|` */
  function FirstIndex(s: string, c: char): (k: nat)
    ensures k <= |s|
    ensures forall j :: 0 <= j < k ==> s[j] != c
    ensures k < |s| ==> s[k] == c
    decreases |s|
  {
    if |s| == 0 then 0
    else if s[0] == c then 0
    else 1 + FirstIndex(s[1..], c)
  }

  /** Reads an identifier back: the text before the first underscore and the
      text after it, each an integer. */
  function ParseId(s: string): Option<(int, int)> {
    var k := FirstIndex(s, '_');
    if k == |s| then None
    else
      match (Decimal.ParseInt(s[..k]), Decimal.ParseInt(s[k + 1..]))
      case (Some(lat), Some(lon)) => Some((lat, lon))
      case _ => None
  }

  /** `changeAltitude(a)`: schedules an animation and returns; the stored
      altitude is untouched until that animation completes. */
  function ChangeAltitude(p: Pin, target: real): (r: Pin)
    ensures r.altitude == p.altitude
    ensures |r.tweens| == |p.tweens| + 1 && r.tweens[..|p.tweens|] == p.tweens
    ensures r.tweens[|p.tweens|] == AltitudeTween(p.altitude, target, false)
    ensures r == p.(tweens := r.tweens)
  {
    p.(tweens := p.tweens + [AltitudeTween(p.altitude, target, false)])
  }

  /** The animation numbered `i` has been started and has not completed */
  predicate Running(p: Pin, i: nat) {
    i < |p.tweens| && !p.tweens[i].completed
  }

  /** One `onUpdate` of altitude animation `i` with interpolated altitude `v`:
      the smoke is moved along only while it is visible. Sprite and line
      positions are not modelled. */
  function TweenFrame(p: Pin, i: nat, v: real): (r: Pin)
    ensures Running(p, i) && p.smoke.Visible? ==>
              r.smokeCalls == p.smokeCalls + [ChangeSmokeAltitude(v, p.smoke.id)]
    ensures !(Running(p, i) && p.smoke.Visible?) ==> r == p
    ensures r == p.(smokeCalls := r.smokeCalls)
  {
    if Running(p, i) && p.smoke.Visible? then
      p.(smokeCalls := p.smokeCalls + [ChangeSmokeAltitude(v, p.smoke.id)])
    else p
  }

  /** `onComplete` of altitude animation `i`: commits its target */
  function TweenComplete(p: Pin, i: nat): (r: Pin)
    ensures Running(p, i) ==> r.altitude == p.tweens[i].to
    ensures Running(p, i) ==> r.tweens == p.tweens[i := p.tweens[i].(completed := true)]
    ensures !Running(p, i) ==> r == p
    ensures r == p.(altitude := r.altitude, tweens := r.tweens)
  {
    if Running(p, i) then
      p.(altitude := p.tweens[i].to, tweens := p.tweens[i := p.tweens[i].(completed := true)])
    else p
  }

  /** One `onUpdate` of the intro fade with interpolated opacity `v`: each
      sprite takes `v` if it is visible at that frame and 0 if not. */
  function FadeInFrame(p: Pin, v: real): (r: Pin)
    ensures p.fadeIn ==> r.topOpacity == (if p.topVisible then v else 0.0)
    ensures p.fadeIn ==> r.labelOpacity == (if p.labelVisible then v else 0.0)
    ensures !p.fadeIn ==> r == p
    ensures r == p.(topOpacity := r.topOpacity, labelOpacity := r.labelOpacity)
  {
    if p.fadeIn then
      p.(topOpacity := if p.topVisible then v else 0.0,
         labelOpacity := if p.labelVisible then v else 0.0)
    else p
  }

  function HideTop(p: Pin): (r: Pin)
    ensures !r.topVisible
    ensures p.topVisible ==> r.topOpacity == 0.0
    ensures r != p <==> p.topVisible
    ensures r == p.(topVisible := r.topVisible, topOpacity := r.topOpacity)
  {
    if p.topVisible then p.(topVisible := false, topOpacity := 0.0) else p
  }

  function ShowTop(p: Pin): (r: Pin)
    ensures r.topVisible
    ensures !p.topVisible ==> r.topOpacity == 1.0
    ensures r != p <==> !p.topVisible
    ensures r == p.(topVisible := r.topVisible, topOpacity := r.topOpacity)
  {
    if !p.topVisible then p.(topVisible := true, topOpacity := 1.0) else p
  }

  function HideLabel(p: Pin): (r: Pin)
    ensures !r.labelVisible
    ensures p.labelVisible ==> r.labelOpacity == 0.0
    ensures r != p <==> p.labelVisible
    ensures r == p.(labelVisible := r.labelVisible, labelOpacity := r.labelOpacity)
  {
    if p.labelVisible then p.(labelVisible := false, labelOpacity := 0.0) else p
  }

  function ShowLabel(p: Pin): (r: Pin)
    ensures r.labelVisible
    ensures !p.labelVisible ==> r.labelOpacity == 1.0
    ensures r != p <==> !p.labelVisible
    ensures r == p.(labelVisible := r.labelVisible, labelOpacity := r.labelOpacity)
  {
    if !p.labelVisible then p.(labelVisible := true, labelOpacity := 1.0) else p
  }

  /** `hideSmoke()`: one `extinguish` of the current handle, only if smoke was visible */
  function HideSmoke(p: Pin): (r: Pin)
    ensures !r.smoke.Visible?
    ensures p.smoke.Visible? ==> r.smokeCalls == p.smokeCalls + [Extinguish(p.smoke.id)]
    ensures r.smokeCalls != p.smokeCalls <==> p.smoke.Visible?
    ensures !p.smoke.Visible? ==> r == p
    ensures r == p.(smoke := r.smoke, smokeCalls := r.smokeCalls)
  {
    match p.smoke
    case Visible(id) => p.(smoke := Hidden(id), smokeCalls := p.smokeCalls + [Extinguish(id)])
    case _ => p
  }

  /** `showSmoke()`: one `setFire` at the stored position, only if smoke was
      hidden; `fire` is the handle the provider returns and replaces the old one. */
  function ShowSmoke(p: Pin, fire: Handle): (r: Pin)
    ensures r.smoke.Visible?
    ensures !p.smoke.Visible? ==> r.smoke.id == fire
    ensures !p.smoke.Visible? ==>
              r.smokeCalls == p.smokeCalls + [SetFire(p.lat, p.lon, p.altitude, fire)]
    ensures r.smokeCalls != p.smokeCalls <==> !p.smoke.Visible?
    ensures p.smoke.Visible? ==> r == p
    ensures r == p.(smoke := r.smoke, smokeCalls := r.smokeCalls)
  {
    if p.smoke.Visible? then p
    else p.(smoke := Visible(fire), smokeCalls := p.smokeCalls + [SetFire(p.lat, p.lon, p.altitude, fire)])
  }

  /** `remove()`: takes the three objects out of the scene and extinguishes
      the smoke if it is visible, without touching any flag. */
  function Remove(p: Pin): (r: Pin)
    ensures r.sceneCalls == p.sceneCalls + Detach
    ensures r.smokeCalls == p.smokeCalls + (if p.smoke.Visible? then [Extinguish(p.smoke.id)] else [])
    ensures r == p.(sceneCalls := r.sceneCalls, smokeCalls := r.smokeCalls)
  {
    p.(sceneCalls := p.sceneCalls + Detach,
       smokeCalls := p.smokeCalls + if p.smoke.Visible? then [Extinguish(p.smoke.id)] else [])
  }

  /** Everything that can happen to a pin after construction: a method call,
      or a callback of an animation it scheduled. */
  datatype Event =
    | ChangeAltitudeCalled(target: real)
    | AltitudeFrame(tween: nat, value: real)
    | AltitudeDone(tween: nat)
    | FadeFrame(opacity: real)
    | HideTopCalled
    | ShowTopCalled
    | HideLabelCalled
    | ShowLabelCalled
    | HideSmokeCalled
    | ShowSmokeCalled(fire: Handle)
    | RemoveCalled
  {
    predicate IsToggle() {
      HideTopCalled? || ShowTopCalled? || HideLabelCalled? || ShowLabelCalled? ||
      HideSmokeCalled? || ShowSmokeCalled?
    }
  }

  function Step(p: Pin, e: Event): Pin {
    match e
    case ChangeAltitudeCalled(a) => ChangeAltitude(p, a)
    case AltitudeFrame(i, v) => TweenFrame(p, i, v)
    case AltitudeDone(i) => TweenComplete(p, i)
    case FadeFrame(v) => FadeInFrame(p, v)
    case HideTopCalled => HideTop(p)
    case ShowTopCalled => ShowTop(p)
    case HideLabelCalled => HideLabel(p)
    case ShowLabelCalled => ShowLabel(p)
    case HideSmokeCalled => HideSmoke(p)
    case ShowSmokeCalled(h) => ShowSmoke(p, h)
    case RemoveCalled => Remove(p)
  }

  function Run(p: Pin, events: seq<Event>): Pin
    decreases |events|
  {
    if |events| == 0 then p else Run(Step(p, events[0]), events[1..])
  }
}

=== FILE: pin_options.dfy ===
/** The option record of a pin (src/js/Pin.js:20-38): a fixed set of defaults,
    the three `show*` flags defaulting to whether the label text is non-empty,
    and a caller object whose defined entries replace the defaults. */
module PinOptions {
  import opened Optional

  datatype Options = Options(
    lineColor: string,
    lineWidth: int,
    topColor: string,
    smokeColor: string,
    labelColor: string,
    font: string,
    showLabel: bool,
    showTop: bool,
    showSmoke: bool)

  /** The caller's `_opts` object, one entry per known key; `None` is an entry
      that is `undefined` or `null`. Keys the defaults do not have are never read. */
  datatype Overrides = Overrides(
    lineColor: Option<string>,
    lineWidth: Option<int>,
    topColor: Option<string>,
    smokeColor: Option<string>,
    labelColor: Option<string>,
    font: Option<string>,
    showLabel: Option<bool>,
    showTop: Option<bool>,
    showSmoke: Option<bool>)

  const NoOverrides := Overrides(None, None, None, None, None, None, None, None, None)

  const DefaultLineColor := "#8FD8D8"
  const DefaultLineWidth := 1
  const DefaultTopColor := "#8FD8D8"
  const DefaultSmokeColor := "#FFF"
  const DefaultLabelColor := "#FFF"
  const DefaultFont := "Inconsolata"

  function Defaults(text: string): Options {
    var shown := |text| > 0;
    Options(DefaultLineColor, DefaultLineWidth, DefaultTopColor, DefaultSmokeColor,
            DefaultLabelColor, DefaultFont, shown, shown, shown)
  }

  /** A missing `_opts` object reads like one whose every entry is undefined */
  function Supplied(given: Option<Overrides>): Overrides {
    given.GetOr(NoOverrides)
  }

  /** The resolved option record: each entry is the caller's when the caller
      defined it, and the default otherwise. */
  function Resolve(text: string, given: Option<Overrides>): (r: Options)
    ensures var o := Supplied(given); o.lineColor.Some? ==> r.lineColor == o.lineColor.value
    ensures var o := Supplied(given); o.lineColor.None? ==> r.lineColor == "#8FD8D8"
    ensures var o := Supplied(given); o.lineWidth.Some? ==> r.lineWidth == o.lineWidth.value
    ensures var o := Supplied(given); o.lineWidth.None? ==> r.lineWidth == 1
    ensures var o := Supplied(given); o.topColor.Some? ==> r.topColor == o.topColor.value
    ensures var o := Supplied(given); o.topColor.None? ==> r.topColor == "#8FD8D8"
    ensures var o := Supplied(given); o.smokeColor.Some? ==> r.smokeColor == o.smokeColor.value
    ensures var o := Supplied(given); o.smokeColor.None? ==> r.smokeColor == "#FFF"
    ensures var o := Supplied(given); o.labelColor.Some? ==> r.labelColor == o.labelColor.value
    ensures var o := Supplied(given); o.labelColor.None? ==> r.labelColor == "#FFF"
    ensures var o := Supplied(given); o.font.Some? ==> r.font == o.font.value
    ensures var o := Supplied(given); o.font.None? ==> r.font == "Inconsolata"
    ensures var o := Supplied(given); o.showLabel.Some? ==> r.showLabel == o.showLabel.value
    ensures var o := Supplied(given); o.showLabel.None? ==> r.showLabel == (|text| > 0)
    ensures var o := Supplied(given); o.showTop.Some? ==> r.showTop == o.showTop.value
    ensures var o := Supplied(given); o.showTop.None? ==> r.showTop == (|text| > 0)
    ensures var o := Supplied(given); o.showSmoke.Some? ==> r.showSmoke == o.showSmoke.value
    ensures var o := Supplied(given); o.showSmoke.None? ==> r.showSmoke == (|text| > 0)
  {
    var d := Defaults(text);
    match given
    case None => d
    case Some(o) =>
      Options(o.lineColor.GetOr(d.lineColor), o.lineWidth.GetOr(d.lineWidth),
              o.topColor.GetOr(d.topColor), o.smokeColor.GetOr(d.smokeColor),
              o.labelColor.GetOr(d.labelColor), o.font.GetOr(d.font),
              o.showLabel.GetOr(d.showLabel), o.showTop.GetOr(d.showTop),
              o.showSmoke.GetOr(d.showSmoke))
  }

  /** The overrides that spell out every entry of `o` */
  function Spelled(o: Options): Overrides {
    Overrides(Some(o.lineColor), Some(o.lineWidth), Some(o.topColor), Some(o.smokeColor),
              Some(o.labelColor), Some(o.font), Some(o.showLabel), Some(o.showTop),
              Some(o.showSmoke))
  }

  /** Leaving `_opts` out and passing an object with no defined entry agree,
      and both give the defaults. */
  lemma ResolveWithoutOverrides(text: string)
    ensures Resolve(text, None) == Resolve(text, Some(NoOverrides)) == Defaults(text)
    ensures var d := Resolve(text, None); d.showLabel == d.showTop == d.showSmoke == (|text| > 0)
  {
  }

  /** Caller values always win: a fully spelled-out option record comes back
      unchanged, whatever the text. Resolving is therefore idempotent. */
  lemma ResolveSpelled(text: string, o: Options)
    ensures Resolve(text, Some(Spelled(o))) == o
  {
  }

  lemma ResolveIdempotent(text: string, given: Option<Overrides>)
    ensures var r := Resolve(text, given); Resolve(text, Some(Spelled(r))) == r
  {
    ResolveSpelled(text, Resolve(text, given));
  }

  /** A defined but falsy entry (`false`) still overrides, for every show
      flag and whatever the text: only `undefined` and `null` fall back to the
      default. Entries left undefined keep their defaults. */
  lemma FalsyEntryOverrides(text: string, o: Overrides)
    ensures o.showLabel == Some(false) ==> !Resolve(text, Some(o)).showLabel
    ensures o.showTop == Some(false) ==> !Resolve(text, Some(o)).showTop
    ensures o.showSmoke == Some(false) ==> !Resolve(text, Some(o)).showSmoke
    ensures o.showLabel.None? ==> Resolve(text, Some(o)).showLabel == (|text| > 0)
    ensures o.showTop.None? ==> Resolve(text, Some(o)).showTop == (|text| > 0)
    ensures o.showSmoke.None? ==> Resolve(text, Some(o)).showSmoke == (|text| > 0)
  {
  }
}

=== FILE: pin_properties.dfy ===
/** What holds of every pin over its lifetime: the invariants construction
    establishes and every call and callback keeps, the per-call promises that
    relate several operations, and two worked constructions. */
module PinProperties {
  import opened Optional
  import opened Effects
  import opened PinOptions
  import opened Pins

  /** A hidden top or label is never drawn */
  predicate HiddenIsTransparent(p: Pin) {
    && (!p.topVisible ==> p.topOpacity == 0.0)
    && (!p.labelVisible ==> p.labelOpacity == 0.0)
  }

  /** The provider's view of the pin's smoke, replayed from the calls the pin
      made, is exactly what the pin believes: burning under the pin's handle
      when smoke is visible, cold otherwise. */
  predicate SmokeLogAgrees(p: Pin) {
    FireLog(p.smokeCalls) == Some(if p.smoke.Visible? then Lit(p.smoke.id) else Cold)
  }

  /** No removal has happened */
  predicate Live(events: seq<Event>) {
    forall k :: 0 <= k < |events| ==> !events[k].RemoveCalled?
  }

  /** Which of the pin's three visibility flags a toggle is about */
  datatype Part = TopPart | LabelPart | SmokePart

  function PartOf(e: Event): Part
    requires e.IsToggle()
  {
    if e.HideTopCalled? || e.ShowTopCalled? then TopPart
    else if e.HideLabelCalled? || e.ShowLabelCalled? then LabelPart
    else SmokePart
  }

  lemma ConstructEstablishes(lat: int, lon: int, text: string, altitude: real,
                             given: Option<Overrides>, fire: Handle)
    ensures var p := Construct(lat, lon, text, altitude, given, fire);
      HiddenIsTransparent(p) && SmokeLogAgrees(p) && OnScene(p.sceneCalls) == AllObjects
  {
    var p := Construct(lat, lon, text, altitude, given, fire);
    OnSceneAppend([], SceneAdd(LabelSprite));
    OnSceneAppend([SceneAdd(LabelSprite)], SceneAdd(Line));
    OnSceneAppend([SceneAdd(LabelSprite), SceneAdd(Line)], SceneAdd(TopSprite));
    if p.opts.showSmoke {
      FireLogAppend([], SetFire(lat, lon, altitude, fire));
    }
  }

  /** Every call and callback, `remove` included, keeps hidden parts transparent */
  lemma StepKeepsTransparency(p: Pin, e: Event)
    requires HiddenIsTransparent(p)
    ensures HiddenIsTransparent(Step(p, e))
  {
  }

  /** Every call and callback other than `remove` keeps the smoke log in step with the flag */
  lemma StepKeepsSmokeLog(p: Pin, e: Event)
    requires SmokeLogAgrees(p)
    requires !e.RemoveCalled?
    ensures SmokeLogAgrees(Step(p, e))
  {
    var q := Step(p, e);
    if q.smokeCalls != p.smokeCalls {
      assert q.smokeCalls == p.smokeCalls + [q.smokeCalls[|p.smokeCalls|]];
      FireLogAppend(p.smokeCalls, q.smokeCalls[|p.smokeCalls|]);
    }
  }

  /** Nothing but construction and `remove` talks to the scene, and nothing
      changes the coordinates, the text or the options. */
  lemma StepKeepsIdentity(p: Pin, e: Event)
    ensures var q := Step(p, e);
      q.lat == p.lat && q.lon == p.lon && q.text == p.text && q.opts == p.opts
    ensures !e.RemoveCalled? ==> Step(p, e).sceneCalls == p.sceneCalls
  {
  }

  lemma {:induction false} LiveRunKeepsInvariants(p: Pin, events: seq<Event>)
    requires Live(events)
    requires HiddenIsTransparent(p) && SmokeLogAgrees(p)
    ensures var q := Run(p, events);
      && HiddenIsTransparent(q) && SmokeLogAgrees(q)
      && q.sceneCalls == p.sceneCalls
      && q.lat == p.lat && q.lon == p.lon && q.text == p.text && q.opts == p.opts
    decreases |events|
  {
    if |events| > 0 {
      var e := events[0];
      assert !e.RemoveCalled?;
      StepKeepsTransparency(p, e);
      StepKeepsSmokeLog(p, e);
      StepKeepsIdentity(p, e);
      assert Live(events[1..]) by {
        forall k | 0 <= k < |events[1..]| ensures !events[1..][k].RemoveCalled? {
          assert events[1..][k] == events[k + 1];
        }
      }
      LiveRunKeepsInvariants(Step(p, e), events[1..]);
    }
  }

  /** Over any sequence of calls and callbacks before `remove`: the three
      objects stay in the scene, the smoke provider's view matches the flag,
      hidden parts are transparent, and the identity never changes. */
  lemma LiveLifecycle(lat: int, lon: int, text: string, altitude: real,
                      given: Option<Overrides>, fire: Handle, events: seq<Event>)
    requires Live(events)
    ensures var q := Run(Construct(lat, lon, text, altitude, given, fire), events);
      && HiddenIsTransparent(q) && SmokeLogAgrees(q)
      && OnScene(q.sceneCalls) == AllObjects
      && q.lat == lat && q.lon == lon && q.text == text && q.opts == Resolve(text, given)
  {
    ConstructEstablishes(lat, lon, text, altitude, given, fire);
    LiveRunKeepsInvariants(Construct(lat, lon, text, altitude, given, fire), events);
  }

  /** `remove` takes every object the pin put into the scene back out */
  lemma RemoveDetachesAll(p: Pin)
    ensures OnScene(Remove(p).sceneCalls) == {}
    ensures Remove(p).topVisible == p.topVisible && Remove(p).labelVisible == p.labelVisible
    ensures Remove(p).smoke == p.smoke
  {
    var log := p.sceneCalls;
    OnSceneAppend(log, SceneRemove(LabelSprite));
    OnSceneAppend(log + [SceneRemove(LabelSprite)], SceneRemove(Line));
    OnSceneAppend(log + [SceneRemove(LabelSprite), SceneRemove(Line)], SceneRemove(TopSprite));
    assert log + [SceneRemove(LabelSprite)] + [SceneRemove(Line)] == log + [SceneRemove(LabelSprite), SceneRemove(Line)];
    assert log + [SceneRemove(LabelSprite), SceneRemove(Line)] + [SceneRemove(TopSprite)] == log + Detach;
    var left := OnScene(log + Detach);
    assert left == OnScene(log) - {LabelSprite} - {Line} - {TopSprite};
    forall o: SceneObject ensures o !in left {
      match o
      case LabelSprite =>
      case Line =>
      case TopSprite =>
    }
  }

  /** `remove` puts the fire out exactly when smoke is visible */
  lemma RemoveExtinguishes(p: Pin)
    requires SmokeLogAgrees(p)
    ensures FireLog(Remove(p).smokeCalls) == Some(Cold)
    ensures |Remove(p).smokeCalls| == |p.smokeCalls| + 1 <==> p.smoke.Visible?
  {
    if p.smoke.Visible? {
      FireLogAppend(p.smokeCalls, Extinguish(p.smoke.id));
    } else {
      assert Remove(p).smokeCalls == p.smokeCalls;
    }
  }

  /** Because `remove` leaves `smokeVisible` set, a `hideSmoke` after it
      extinguishes the same handle a second time. */
  lemma RemoveThenHideSmokeExtinguishesTwice(p: Pin)
    requires SmokeLogAgrees(p) && p.smoke.Visible?
    ensures var q := HideSmoke(Remove(p));
      q.smokeCalls == p.smokeCalls + [Extinguish(p.smoke.id), Extinguish(p.smoke.id)]
      && FireLog(q.smokeCalls) == None
  {
    RemoveExtinguishes(p);
    FireLogAppend(Remove(p).smokeCalls, Extinguish(p.smoke.id));
    assert p.smokeCalls + [Extinguish(p.smoke.id)] + [Extinguish(p.smoke.id)]
        == p.smokeCalls + [Extinguish(p.smoke.id), Extinguish(p.smoke.id)];
  }

  /** A second call of any show/hide method does nothing */
  lemma TogglesIdempotent(p: Pin, e: Event)
    requires e.IsToggle()
    ensures Step(Step(p, e), e) == Step(p, e)
  {
  }

  /** Toggles of different parts commute: the three flags are independent */
  lemma TogglesIndependent(p: Pin, a: Event, b: Event)
    requires a.IsToggle() && b.IsToggle() && PartOf(a) != PartOf(b)
    ensures Step(Step(p, a), b) == Step(Step(p, b), a)
  {
  }

  /** Hiding after showing is hiding: the opacity returns to 0 */
  lemma HideUndoesShow(p: Pin)
    requires HiddenIsTransparent(p)
    ensures HideTop(ShowTop(p)) == HideTop(p)
    ensures HideLabel(ShowLabel(p)) == HideLabel(p)
  {
  }

  /** The stored altitude moves only when an altitude animation completes,
      and then to that animation's target. */
  lemma AltitudeOnlyOnCompletion(p: Pin, e: Event)
    ensures var q := Step(p, e);
      q.altitude != p.altitude ==>
        e.AltitudeDone? && Running(p, e.tween) && q.altitude == p.tweens[e.tween].to
  {
  }

  /** Whatever else runs in between, completing the animation that
      `changeAltitude(a)` started sets the altitude to `a`. */
  lemma CompletionCommitsTarget(p: Pin, a: real, between: seq<Event>)
    requires forall k :: 0 <= k < |between| ==> !(between[k].AltitudeDone? && between[k].tween == |p.tweens|)
    ensures var q := Run(ChangeAltitude(p, a), between);
      Running(q, |p.tweens|) && TweenComplete(q, |p.tweens|).altitude == a
  {
    TweenStaysRunning(ChangeAltitude(p, a), |p.tweens|, between);
  }

  lemma {:induction false} TweenStaysRunning(p: Pin, i: nat, events: seq<Event>)
    requires Running(p, i)
    requires forall k :: 0 <= k < |events| ==> !(events[k].AltitudeDone? && events[k].tween == i)
    ensures var q := Run(p, events); Running(q, i) && q.tweens[i] == p.tweens[i]
    decreases |events|
  {
    if |events| > 0 {
      var q := Step(p, events[0]);
      assert |q.tweens| >= |p.tweens| && q.tweens[i] == p.tweens[i];
      TweenStaysRunning(q, i, events[1..]);
    }
  }

  /** `new Pin(10, 20, "City", 100, ...)`: one fire at (10, 20, 100), three
      objects in the scene, identifier "10_20". */
  lemma CityScenario(fire: Handle)
    ensures var p := Construct(10, 20, "City", 100.0, None, fire);
      && p.smokeCalls == [SetFire(10, 20, 100.0, fire)]
      && |OnScene(p.sceneCalls)| == 3
      && ToString(p) == "10_20"
  {
    var p := Construct(10, 20, "City", 100.0, None, fire);
    ConstructEstablishes(10, 20, "City", 100.0, None, fire);
    ShowTenAndTwenty();
    var s := ToString(p);
    var k := FirstIndex(s, '_');
    assert s == s[..k] + [s[k]] + s[k + 1..];
  }

  lemma ShowTenAndTwenty()
    ensures Decimal.ShowInt(10) == "10" && Decimal.ShowInt(20) == "20"
  {
  }

  /** With empty text and no options nothing is shown and no fire is started */
  lemma EmptyTextScenario(lat: int, lon: int, altitude: real, fire: Handle)
    ensures var p := Construct(lat, lon, "", altitude, None, fire);
      !p.topVisible && !p.labelVisible && !p.smoke.Visible? && p.smokeCalls == [] && !p.fadeIn
  {
  }
}
